=== FILE: README.md ===
# EPG geometry and row scrolling, in Dafny

A model of the two pieces of the electronic program guide widget that carry its logic:

- **the geometry and visibility engine** (`src/Epg/helpers/epg.ts`, module `Epg` in
  `epg.dfy`): broadcast intervals become pixel offsets and widths through a start/end
  window; programs and channels become positioned records; two culling predicates decide
  which records are mounted for a scroll state. `getConvertedPrograms` keeps its loop
  with a running item index (`Epg.ConvertPrograms`). It is proved against the
  per-element specification `Epg.ConvertedAt`, and the properties of the layout are
  proved about that function.
- **the row scroll controller** (`src/Epg/hooks/useRow.tsx`, module `RowScroll` in
  `row.dfy`): a class `Scroller` holding one row's scroll box offsets, the wrapper's
  boundary marker (`data-state`), the committed scroll state, and the pagination
  callbacks, recorded as events. Each command handler is a method. A command records the
  offset it asked the box to scroll to (`requestedLeft`). The browser moving the box is
  the environment method `Frame`, which reports the offsets reached. A left scroll with a
  beginning callback waits, frame after frame, until the box is exactly at its target,
  and only then runs its callback. The class invariant `Valid` states that, whenever both
  the scroll box and the wrapper exist, the marker matches the offset and the current
  widths, and that every waiting scroll targets its computed offset raised to 0.

`options.dfy` holds the `Option` type used for JavaScript values that may be `undefined`.

Units: instants are whole minutes (so rounding to minutes is the identity), and pixels
are exact reals. An optional number is "truthy" when it is defined and not 0
(`Epg.Truthy`); `itemWidth`, `value` and friends are tested that way, as in the source.
The configurable record keys (`channelMapKey`, `programChannelMapKey`, `sinceMapKey`,
`tillMapKey`) are resolved once: `Program.channel`, `Program.since`, `Program.till` and
`Channel.key` hold the values found under the configured keys.

The date helpers live in files that are not part of this model: `src/Epg/helpers/time.ts`
(`isYesterday`, `formatTime`, `roundToMinutes`), `src/Epg/helpers/common.ts` (`getDate`) and
date-fns (`endOfDay`). They are taken as follows. `isYesterday(since, startDate)` is `since < startDate`. `formatTime`,
`roundToMinutes` and `getDate` are the identity on minutes. `endOfDay(t)` is the last whole
minute of the day that contains `t` (`Epg.EndOfDay`), with days aligned to the epoch.

## Model

| member | source | states |
|---|---|---|
| Epg.ItemDiffWidth | src/Epg/helpers/epg.ts:21-22 | sixty minutes are one hour width, zero minutes are zero pixels, and a non-negative interval has a non-negative width |
| Epg.ItemDiffWidthAdditive | src/Epg/helpers/epg.ts:21-22 | the conversion is additive: the width of `a + b` minutes is the width of `a` plus the width of `b` |
| Epg.ItemDiffWidthMonotone | src/Epg/helpers/epg.ts:21-22 | a longer interval is never narrower (non-negative hour width) |
| Epg.PositionX | src/Epg/helpers/epg.ts:24-73 | with a truthy item width and a defined item index (0 counts) the result is `itemWidth * itemIndex`; otherwise it is the pixel length of the interval's overlap with the window, raised to 0 only when the interval runs past the window's end |
| Epg.PositionXClamps | src/Epg/helpers/epg.ts:37-72 | the four clamping cases (starts before the window and ends after it, only one of the two, neither), and the past-the-end case is never negative |
| Epg.PositionXIsVisibleSpan | src/Epg/helpers/epg.ts:37-72 | for a well-formed interval that does not end before the window starts, the result is the pixel length of its visible part, between 0 and the window's width |
| Epg.ChannelPositionAt | src/Epg/helpers/epg.ts:76-86 | a row has the item height and ends where row `channelIndex + 1` begins |
| Epg.ConvertChannels | src/Epg/helpers/epg.ts:231-235 | every channel is kept, in order and unchanged, with row `i` at top `itemHeight * i` |
| Epg.ChannelRowsStack | src/Epg/helpers/epg.ts:231-235 | with a non-negative height, converted rows never overlap and follow list order |
| Epg.EndOfDay | src/Epg/helpers/epg.ts:104-106 | the default end of a program is in the same day as its start, not before it, and is the last minute of that day |
| Epg.ProgramPosition | src/Epg/helpers/epg.ts:88-166 | height is the item height and top is `itemHeight * channelIndex`. A placeholder is one item wide (200 without item width), at left 0, with its record unchanged. Any other program gets its end filled in (the end of its start's day when missing), left 0 when it starts before the window, width 0 when its row is above the grid, and the item width when one is set |
| Epg.FixedWidthPlacement | src/Epg/helpers/epg.ts:133-151 | in fixed-width mode a program always ends where slot `itemIndex + 1` begins; when it starts in the window it occupies the slot `[itemWidth * itemIndex, itemWidth * (itemIndex + 1)]`, so `edgeEnd == left + width` on a found row |
| Epg.TimeModePlacement | src/Epg/helpers/epg.ts:133-151 | in time mode a program inside the window has left = time from window start, width = its duration, edgeEnd = time to its end, so `edgeEnd == left + width` |
| Epg.CrossesWindowEndPlacement | src/Epg/helpers/epg.ts:133-151 | in time mode a program that starts in the window and runs past its end is cut at the window's end: left = time from window start, width = time up to the window end, edgeEnd = the whole window, and `edgeEnd == left + width` |
| Epg.SpansWholeWindowPlacement | src/Epg/helpers/epg.ts:131-153 | in time mode a program that starts before the window and ends after it starts at 0 and is exactly as wide as the whole window |
| Epg.CrossesWindowStartPlacement | src/Epg/helpers/epg.ts:131-153 | in time mode a program that starts before the window and ends inside it starts at 0 and is as wide as its part after the window start, with `edgeEnd == width` |
| Epg.StartsAfterWindowPlacement | src/Epg/helpers/epg.ts:133-153 | in time mode a program that starts after the window ends has width 0 and sits at the window's end (`left == edgeEnd ==` the whole window) |
| Epg.EndedBeforeWindowHasNoWidth | src/Epg/helpers/epg.ts:133-139 | in time mode a program ending no later than the window start has no positive width |
| Epg.FindChannelIndex | src/Epg/helpers/epg.ts:201-203 | the index of the first channel with the program's key, and -1 exactly when no channel has it |
| Epg.RunIndex | src/Epg/helpers/epg.ts:205-210 | the item index is the number of programs just before this one, with no gap, that are on its channel |
| Epg.ConvertPrograms | src/Epg/helpers/epg.ts:184-228 | one record per program, in input order, each the program's position with its channel row, its item index and its same-channel next program |
| Epg.CountOnChannelNone | src/Epg/helpers/epg.ts:205-210 | a prefix holding no program of a channel counts none of them |
| Epg.RunIndexCountsPredecessors | src/Epg/helpers/epg.ts:198-210 | on input grouped by channel, the item index is the number of earlier programs on the same channel |
| Epg.RunIndexExample | src/Epg/helpers/epg.ts:205-210 | on channels `[c1, c1, c2, c1]` the item indices are 0, 1, 0, 0: the index restarts after a channel change |
| Epg.FixedWidthLeftIsSlot | src/Epg/helpers/epg.ts:142 | in fixed-width mode a converted program starting in the window has left `itemWidth * itemIndex` |
| Epg.FixedWidthLeftCountsPredecessors | src/Epg/helpers/epg.ts:184-228 | in fixed-width mode, on grouped input, a program that is not a placeholder and starts no earlier than the window start is placed after exactly its same-channel predecessors, one item width each |
| Epg.FixedWidthNeighboursTile | src/Epg/helpers/epg.ts:142-151 | in fixed-width mode two consecutive same-channel programs that are not placeholders, the second starting no earlier than the window start, tile the row: the first's edgeEnd is the second's left |
| Epg.FixedWidthBeforeWindowOverlaps | src/Epg/helpers/epg.ts:142-153 | in fixed-width mode, when the second of two consecutive same-channel programs starts before the window, it is pulled back to left 0 while the first still ends at the close of its slot, so the two overlap |
| Epg.ProgramSitsOnChannelRow | src/Epg/helpers/epg.ts:141 | a converted program whose channel is found has the top and height of that channel's converted row |
| Epg.SidebarItemVisible | src/Epg/helpers/epg.ts:268-283 | a row is mounted exactly when `top - containerHeight < scrollY <= top + 3 * itemOverscan` |
| Epg.ItemVisible | src/Epg/helpers/epg.ts:238-266 | a program is mounted exactly when it has positive width, its row passes the sidebar test, and `[left, edgeEnd]` meets `[scrollX, scrollX + containerWidth]` |
| Epg.VisibilityLostForGood | src/Epg/helpers/epg.ts:250-252 | once scrolled more than three overscans past an item's top, scrolling further down never mounts it or its row |
| Epg.UnmatchedProgramNeverVisible | src/Epg/helpers/epg.ts:153-155 | with a positive row height, a program that is not a placeholder and whose channel is not listed is never mounted, for any scroll state |
| Epg.InWindowExample | src/Epg/helpers/epg.ts:88-166 | window 00:00-24:00 at 100 px per hour: a program 01:00-03:00 on row 0 is at left 100, width 200, edgeEnd 300 |
| Epg.SpansWindowStartExample | src/Epg/helpers/epg.ts:131-153 | a program from 23:00 the day before until 01:00 is clamped to left 0 and width 100 |
| Epg.FixedWidthRowExample | src/Epg/helpers/epg.ts:184-228 | three programs of one channel with item width 150 get left edges 0, 150 and 300 |
| RowScroll.BoundaryAt | src/Epg/hooks/useRow.tsx:89-101 | the marker is `beginning` exactly at or before offset 0, `end` exactly when past 0 and at or beyond `width - layoutWidth + sidebarWidth`, and removed in between |
| RowScroll.BoundaryMonotone | src/Epg/hooks/useRow.tsx:89-101 | scrolling further right never moves the marker back from end towards beginning |
| RowScroll.LeftRightRoundTrip | src/Epg/hooks/useRow.tsx:176-234 | a left step and a right step by the same value (or both by the default of two item widths) cancel out, in either order |
| RowScroll.CallbackTarget | src/Epg/hooks/useRow.tsx:189-200 | the waited-for target is never negative and never left of the computed offset, equals it when it is non-negative, and is 0 exactly when the computed offset is not positive |
| RowScroll.NowTarget | src/Epg/hooks/useRow.tsx:138-164 | one item before the live program when there is one; otherwise 0 with a non-zero item width; with item width 0 it is the pixel length from the later of midnight and the window start up to now (negative before a later window opens), and the whole window once now is past the window's end |
| RowScroll.StillWaiting | src/Epg/hooks/useRow.tsx:42-52 | a scroll keeps waiting exactly when the box's offset is not its target |
| RowScroll.StillWaitingCounts | src/Epg/hooks/useRow.tsx:36-53 | each scroll whose target is elsewhere keeps waiting as many times as it was waiting (identical commands start independent pollers), and an arrived one is gone |
| RowScroll.FiredExactly | src/Epg/hooks/useRow.tsx:36-53 | the callbacks that run when the box reaches an offset are exactly the beginnings of the waiting scrolls that arrived there with a computed offset that was not positive, each carrying that scroll's program (which events occur; FiredCounts gives how many times) |
| RowScroll.FiredCounts | src/Epg/hooks/useRow.tsx:36-53 | one callback per arrived poller: the beginning reporting a program runs exactly as many times as there are waiting scrolls with that program that arrived with a non-positive computed offset |
| RowScroll.ArrivedWithLast | src/Epg/hooks/useRow.tsx:42-52 | appending one poller adds it to the arrived set exactly when it arrived with a non-positive offset and the given program |
| RowScroll.BeginningOnlyAtZero | src/Epg/hooks/useRow.tsx:189-200 | with every target clamped at 0, a beginning callback only runs when the box is at offset 0, and each one reports the program of a scroll that arrived there with a non-positive computed offset |
| RowScroll.Scroller.constructor | src/Epg/hooks/useRow.tsx:85-86 | a mounted row starts at offset 0 with no committed scroll, nothing waiting, and the marker `beginning` when both elements exist |
| RowScroll.Scroller.Frame | src/Epg/hooks/useRow.tsx:113-136 | the scroll handler sets the marker for the new offset and commits both offsets; the scrolls whose target is reached stop waiting and run their callbacks, the rest keep waiting |
| RowScroll.Scroller.ScrollLeft | src/Epg/hooks/useRow.tsx:176-208 | steps left by the truthy value or two item widths; with a beginning callback it asks for the offset raised to 0 and waits for it, otherwise it asks for the raw offset; nothing without a scroll box |
| RowScroll.Scroller.ScrollRight | src/Epg/hooks/useRow.tsx:210-234 | steps right by the truthy value or two item widths, and runs the end callback at once exactly when the target reaches the end threshold |
| RowScroll.Scroller.ScrollTop | src/Epg/hooks/useRow.tsx:166-174 | moves the vertical offset by the value, or by one hour width when no value is given; a given 0 does not move it |
| RowScroll.Scroller.ScrollTo | src/Epg/hooks/useRow.tsx:236-246 | asks for exactly the given offset when the scroll box exists |
| RowScroll.Scroller.ScrollToNow | src/Epg/hooks/useRow.tsx:138-164 | asks for the now target only when the scroll box exists and the row's day is today |
| RowScroll.Scroller.AutoScrollToNow | src/Epg/hooks/useRow.tsx:249-256 | scrolls to now only when the box exists, the day is today, scroll-to-now is on and the row is not a skeleton |
| RowScroll.Scroller.Relayout | src/Epg/hooks/useRow.tsx:258-266 | new widths, and the marker recomputed from the current offset against the new threshold |
| RowScroll.BeginningFiresOnArrival | src/Epg/hooks/useRow.tsx:176-208 | a left scroll with a beginning callback reports the beginning exactly when the box lands on the clamped target and the computed offset was not positive |
| RowScroll.EndFiresImmediately | src/Epg/hooks/useRow.tsx:210-234 | a right scroll with an end callback reports the end before any frame, exactly when the step reaches the end threshold |

## Left out

- Floating-point arithmetic: pixels are exact reals, so rounding in products like `itemWidth * itemIndex` is not modelled.
- Dates: `src/Epg/helpers/time.ts` and date-fns are not part of this model. Instants are whole minutes. `isYesterday` is taken as "starts before the window start". `endOfDay` works on epoch-aligned days, so time zones and daylight saving are not modelled.
- Epg.ProgramPosition: requires an end to be known. The source leaves a program without `till` undefined when a same-channel program follows it, and that path is not modelled. A `till` of 0 (falsy) is treated as present.
- Epg.ProgramPosition: with custom `sinceMapKey` / `tillMapKey`, the source writes the formatted times under the literal keys `since` and `till` (`src/Epg/helpers/epg.ts:127-128`). The model has one field for each, so that distinction is not modelled.
- The optional `index` field of `Position` (`src/Epg/helpers/types.ts:10`) is never set by this code and is not modelled.
- RowScroll.NowTarget: `src/Epg/hooks/useRow.tsx:148-156` calls `getPositionX` with a single object, while `src/Epg/helpers/epg.ts:24-32` declares positional parameters. As written, `itemIndex` and `itemWidth` are then undefined inside `getPositionX`, so its fixed-width branch never runs on this path, and `since` is the object itself. The model reads the call as the named arguments it spells out (`since` = start of today, `till` = now, `itemIndex` = 0, `itemWidth`), and does not model the call as written.
- RowScroll.Scroller.Frame: the commit of `scrollX`/`scrollY` is debounced in the source. The model commits at once, so the wait and max-wait timing is not modelled.
- RowScroll.Scroller.Frame: the number of animation frames before arrival is not modelled; only "the callback runs when the box is at its target" is. Smooth versus instant `behavior` is not modelled either.
- The browser clamping of scroll offsets to the scrollable range is not modelled. The box reaches whatever offsets `Frame` is given.
- React plumbing is not modelled: stale closures from `useCallback` dependency lists, ref forwarding (`scrollBoxRef`), the isomorphic layout-effect selection, and re-renders.
- `isToday` and the current time are parameters, since the clock is not modelled.
- The presentation components, `useEpg`, the layout store and the other hooks are not part of this model.

=== FILE: epg.dfy ===
/**
 * The geometry and visibility engine of the program guide (src/Epg/helpers/epg.ts):
 * time intervals become pixel offsets and widths, programs and channels become
 * positioned records, and two culling predicates decide which records are mounted.
 *
 * Instants are whole minutes, so rounding to minutes and differencing in minutes are
 * plain integer operations. Pixels are exact reals. The configurable record keys
 * (`channelMapKey`, `programChannelMapKey`, `sinceMapKey`, `tillMapKey`) are resolved
 * once: `Program.channel`, `Program.since`, `Program.till` and `Channel.key` hold the
 * values found under whichever keys were configured.
 */
module Epg {
  import opened Options

  /** Minutes in an hour: the divisor of every time-to-pixel conversion. */
  const HourInMinutes: int := 60
  /** Minutes in a calendar day. */
  const DayInMinutes: int := 1440
  /** Width given to a placeholder program when no item width is configured. */
  const EmptyItemWidth: real := 200.0

  /** An instant, in whole minutes since a day-aligned epoch. */
  type Instant = int

  datatype Program = Program(
    channel: string,           // the value under the program's channel key
    since: Instant,
    till: Option<Instant>,
    isEmpty: bool,             // a placeholder ("no data") block
    extra: map<string, string> // every other field, carried along untouched
  )

  datatype Channel = Channel(key: string, logo: string, extra: map<string, string>)

  datatype Position = Position(width: real, height: real, top: real, left: real, edgeEnd: real)

  datatype ProgramWithPosition = ProgramWithPosition(position: Position, data: Program)

  datatype ChannelPosition = ChannelPosition(top: real, height: real)

  datatype ChannelWithPosition = ChannelWithPosition(channel: Channel, position: ChannelPosition)

  /** The parameters every program conversion shares: time window and item dimensions. */
  datatype Grid = Grid(
    startDate: Instant,
    endDate: Instant,
    hourWidth: real,
    itemWidth: Option<real>,  // fixed item width (row / paged mode) when set and non-zero
    itemHeight: real
  )

  /** JavaScript truthiness of an optional number: defined and not zero. */
  predicate Truthy(x: Option<real>) {
    x.Some? && x.value != 0.0
  }

  /** The offset of slot `index` when every slot is `size` long (rows, fixed-width items). */
  function Scaled(size: real, index: int): real {
    size * index as real
  }

  function Max(a: int, b: int): int { if a < b then b else a }

  function Min(a: int, b: int): int { if a < b then a else b }

  // -------- Time to pixels --------

  /** Pixel length of `diff` minutes at `hourWidth` pixels per hour. */
  function ItemDiffWidth(diff: int, hourWidth: real): (r: real)
    ensures diff == HourInMinutes ==> r == hourWidth
    ensures diff == 0 ==> r == 0.0
    ensures 0 <= diff && 0.0 <= hourWidth ==> 0.0 <= r
  {
    (diff as real * hourWidth) / HourInMinutes as real
  }

  /** The conversion is additive: adjacent intervals have adjacent pixel extents. */
  lemma ItemDiffWidthAdditive(a: int, b: int, hourWidth: real)
    ensures ItemDiffWidth(a + b, hourWidth) == ItemDiffWidth(a, hourWidth) + ItemDiffWidth(b, hourWidth)
  {
    assert (a + b) as real * hourWidth == a as real * hourWidth + b as real * hourWidth;
  }

  /** The conversion is monotone for a non-negative scale. */
  lemma ItemDiffWidthMonotone(a: int, b: int, hourWidth: real)
    requires a <= b && 0.0 <= hourWidth
    ensures ItemDiffWidth(a, hourWidth) <= ItemDiffWidth(b, hourWidth)
  {
    ItemDiffWidthAdditive(a, b - a, hourWidth);
  }

  /** Minutes of [since, till] that lie inside [startDate, endDate]; negative when disjoint. */
  function Overlap(since: Instant, till: Instant, startDate: Instant, endDate: Instant): int {
    Min(till, endDate) - Max(since, startDate)
  }

  /** Fixed-width mode: a truthy item width together with a defined item index (0 included). */
  predicate FixedWidthMode(itemIndex: Option<int>, itemWidth: Option<real>) {
    Truthy(itemWidth) && itemIndex.Some?
  }

  /**
   * getPositionX: the pixel extent of the interval [since, till] seen through the window
   * [startDate, endDate]. In fixed-width mode the dates are not consulted. Otherwise the
   * interval is clamped to the window, and only when it runs past the window's end is a
   * negative extent raised to 0.
   */
  function PositionX(since: Instant, till: Instant, startDate: Instant, endDate: Instant,
                     hourWidth: real, itemIndex: Option<int>, itemWidth: Option<real>): (r: real)
    ensures FixedWidthMode(itemIndex, itemWidth) ==> r == Scaled(itemWidth.value, itemIndex.value)
    ensures !FixedWidthMode(itemIndex, itemWidth) && startDate <= endDate ==>
      r == ItemDiffWidth(if till > endDate then Max(0, Overlap(since, till, startDate, endDate))
                         else Overlap(since, till, startDate, endDate), hourWidth)
  {
    if FixedWidthMode(itemIndex, itemWidth) then
      Scaled(itemWidth.value, itemIndex.value)
    else
      var isTomorrow := till > endDate;
      var isYesterday := since < startDate;
      if isYesterday && isTomorrow then
        ItemDiffWidth(endDate - startDate, hourWidth)
      else if isYesterday then
        ItemDiffWidth(till - startDate, hourWidth)
      else if isTomorrow then
        var diffTime := endDate - since;
        if diffTime < 0 then 0.0 else ItemDiffWidth(diffTime, hourWidth)
      else
        ItemDiffWidth(till - since, hourWidth)
  }

  /** The four clamping cases of the time mode, one by one. */
  lemma PositionXClamps(since: Instant, till: Instant, startDate: Instant, endDate: Instant,
                        hourWidth: real, itemIndex: Option<int>, itemWidth: Option<real>)
    requires !FixedWidthMode(itemIndex, itemWidth) && startDate <= endDate
    ensures var r := PositionX(since, till, startDate, endDate, hourWidth, itemIndex, itemWidth);
      && (since < startDate && till > endDate ==> r == ItemDiffWidth(endDate - startDate, hourWidth))
      && (since < startDate && till <= endDate ==> r == ItemDiffWidth(till - startDate, hourWidth))
      && (since >= startDate && till > endDate ==> r == ItemDiffWidth(Max(0, endDate - since), hourWidth))
      && (since >= startDate && till <= endDate ==> r == ItemDiffWidth(till - since, hourWidth))
      && (startDate <= since && till > endDate && 0.0 <= hourWidth ==> 0.0 <= r)
  {
  }

  /**
   * For a well-formed interval that does not end before the window starts, the time mode
   * measures exactly the part of the interval inside the window, so the result lies
   * between 0 and the width of the whole window.
   */
  lemma {:induction false} PositionXIsVisibleSpan(since: Instant, till: Instant, startDate: Instant,
                                                  endDate: Instant, hourWidth: real,
                                                  itemIndex: Option<int>, itemWidth: Option<real>)
    requires !FixedWidthMode(itemIndex, itemWidth)
    requires startDate <= endDate && since <= till && startDate <= till
    requires 0.0 <= hourWidth
    ensures var r := PositionX(since, till, startDate, endDate, hourWidth, itemIndex, itemWidth);
      && r == ItemDiffWidth(Max(0, Overlap(since, till, startDate, endDate)), hourWidth)
      && 0.0 <= r <= ItemDiffWidth(endDate - startDate, hourWidth)
  {
    var span := Max(0, Overlap(since, till, startDate, endDate));
    assert 0 <= span <= endDate - startDate;
    ItemDiffWidthMonotone(span, endDate - startDate, hourWidth);
  }

  // -------- Channel rows --------

  /** getChannelPosition: rows are stacked, row `channelIndex` ending where the next begins. */
  function ChannelPositionAt(channelIndex: int, itemHeight: real): (p: ChannelPosition)
    ensures p.height == itemHeight
    ensures p.top + p.height == Scaled(itemHeight, channelIndex + 1)
  {
    ChannelPosition(Scaled(itemHeight, channelIndex), itemHeight)
  }

  /** getConvertedChannels: every channel kept, in order, with its row position added. */
  function ConvertChannels(channels: seq<Channel>, itemHeight: real): (r: seq<ChannelWithPosition>)
    ensures |r| == |channels|
    ensures forall i :: 0 <= i < |r| ==>
      r[i].channel == channels[i] && r[i].position == ChannelPosition(Scaled(itemHeight, i), itemHeight)
  {
    seq(|channels|, i requires 0 <= i < |channels| =>
      ChannelWithPosition(channels[i], ChannelPositionAt(i, itemHeight)))
  }

  /** With a non-negative row height the converted rows never overlap and keep list order. */
  lemma ChannelRowsStack(channels: seq<Channel>, itemHeight: real, i: int, j: int)
    requires 0 <= i < j < |channels| && 0.0 <= itemHeight
    ensures var r := ConvertChannels(channels, itemHeight);
      r[i].position.top + r[i].position.height <= r[j].position.top
  {
    var r := ConvertChannels(channels, itemHeight);
    assert r[i].position.top + r[i].position.height == Scaled(itemHeight, i + 1);
    assert (j - (i + 1)) as real * itemHeight >= 0.0;
  }

  // -------- Program rectangles --------

  /** The last whole minute of the calendar day that contains `t` (date-fns endOfDay). */
  function EndOfDay(t: Instant): (r: Instant)
    ensures t <= r < t + DayInMinutes
    ensures (r + 1) % DayInMinutes == 0
  {
    t - t % DayInMinutes + DayInMinutes - 1
  }

  /** The "is yesterday" test of a program start against the window start. */
  predicate IsYesterday(since: Instant, startDate: Instant) {
    since < startDate
  }

  /**
   * A program's end is known when it has one, or when no same-channel program follows it
   * (it then defaults to the end of its start's day). A placeholder never needs it.
   */
  predicate TillKnown(program: Program, nextProgram: Option<Program>) {
    program.isEmpty || program.till.Some? || nextProgram.None?
  }

  /** The end used for a non-placeholder program. */
  function ResolvedTill(program: Program, nextProgram: Option<Program>): Instant
    requires TillKnown(program, nextProgram) && !program.isEmpty
  {
    if program.till.None? then EndOfDay(program.since) else program.till.value
  }

  /**
   * getProgramPosition: the rectangle of one program.
   * A placeholder is one item wide (200 when no width is set), starts at 0 and keeps its
   * record unchanged. Any other program gets its end filled in, sits on its channel's row,
   * starts at 0 when it began before the window, and has no width when its row is above
   * the grid (channel not found).
   */
  function ProgramPosition(program: Program, nextProgram: Option<Program>, channelIndex: int,
                           itemIndex: int, grid: Grid): (r: ProgramWithPosition)
    requires TillKnown(program, nextProgram)
    ensures r.position.height == grid.itemHeight
    ensures r.position.top == Scaled(grid.itemHeight, channelIndex)
    ensures program.isEmpty ==>
      && r.data == program
      && r.position.width == (if Truthy(grid.itemWidth) then grid.itemWidth.value else EmptyItemWidth)
      && r.position.left == 0.0
      && r.position.edgeEnd == r.position.width
    ensures !program.isEmpty ==>
      && r.data == program.(till := Some(ResolvedTill(program, nextProgram)))
      && (program.till.None? ==> r.data.till == Some(EndOfDay(program.since)))
      && (program.since < grid.startDate ==> r.position.left == 0.0)
      && (r.position.top < 0.0 ==> r.position.width == 0.0)
      && (r.position.top >= 0.0 && Truthy(grid.itemWidth) ==> r.position.width == grid.itemWidth.value)
  {
    if program.isEmpty then
      var width := if Truthy(grid.itemWidth) then grid.itemWidth.value else EmptyItemWidth;
      var position := Position(width, grid.itemHeight, Scaled(grid.itemHeight, channelIndex), 0.0, width);
      ProgramWithPosition(position, program)
    else
      var till := ResolvedTill(program, nextProgram);
      var item := program.(till := Some(till));
      var width :=
        if Truthy(grid.itemWidth) then grid.itemWidth.value
        else PositionX(item.since, till, grid.startDate, grid.endDate, grid.hourWidth, None, None);
      var top := Scaled(grid.itemHeight, channelIndex);
      var left := PositionX(grid.startDate, item.since, grid.startDate, grid.endDate, grid.hourWidth,
                            Some(itemIndex), grid.itemWidth);
      var edgeEnd := PositionX(grid.startDate, till, grid.startDate, grid.endDate, grid.hourWidth,
                               Some(itemIndex + 1), grid.itemWidth);
      var left' := if IsYesterday(item.since, grid.startDate) then 0.0 else left;
      var width' := if top < 0.0 then 0.0 else width;
      ProgramWithPosition(Position(width', grid.itemHeight, top, left', edgeEnd), item)
  }

  /**
   * Fixed-width mode: the item ends where slot `itemIndex + 1` begins, whatever its dates;
   * when it does not start before the window it occupies the whole slot
   * [itemIndex * itemWidth, (itemIndex + 1) * itemWidth].
   */
  lemma FixedWidthPlacement(program: Program, nextProgram: Option<Program>, channelIndex: int,
                            itemIndex: int, grid: Grid)
    requires TillKnown(program, nextProgram) && !program.isEmpty
    requires Truthy(grid.itemWidth)
    ensures var p := ProgramPosition(program, nextProgram, channelIndex, itemIndex, grid).position;
      && p.edgeEnd == Scaled(grid.itemWidth.value, itemIndex + 1)
      && (program.since >= grid.startDate ==> p.left == Scaled(grid.itemWidth.value, itemIndex))
      && (program.since >= grid.startDate && 0.0 <= p.top ==> p.edgeEnd == p.left + p.width)
  {
  }

  /**
   * Time mode, a program wholly inside the window on a found row: left, width and edgeEnd
   * are the pixel lengths from the window start to `since`, of the program, and from the
   * window start to its end, so edgeEnd == left + width.
   */
  lemma {:induction false} TimeModePlacement(program: Program, nextProgram: Option<Program>,
                                             channelIndex: int, itemIndex: int, grid: Grid)
    requires TillKnown(program, nextProgram) && !program.isEmpty
    requires !Truthy(grid.itemWidth)
    requires var till := ResolvedTill(program, nextProgram);
      grid.startDate <= program.since <= till <= grid.endDate
    requires Scaled(grid.itemHeight, channelIndex) >= 0.0
    ensures var till := ResolvedTill(program, nextProgram);
      var p := ProgramPosition(program, nextProgram, channelIndex, itemIndex, grid).position;
      && p.left == ItemDiffWidth(program.since - grid.startDate, grid.hourWidth)
      && p.width == ItemDiffWidth(till - program.since, grid.hourWidth)
      && p.edgeEnd == ItemDiffWidth(till - grid.startDate, grid.hourWidth)
      && p.edgeEnd == p.left + p.width
  {
    var till := ResolvedTill(program, nextProgram);
    ItemDiffWidthAdditive(program.since - grid.startDate, till - program.since, grid.hourWidth);
  }

  /**
   * Time mode, a program that starts in the window and runs past its end (the last
   * program of a day): it is cut at the window's end, so left is the time from the window
   * start, width the time up to the window end, and edgeEnd the whole window.
   */
  lemma {:induction false} CrossesWindowEndPlacement(program: Program, nextProgram: Option<Program>,
                                                     channelIndex: int, itemIndex: int, grid: Grid)
    requires TillKnown(program, nextProgram) && !program.isEmpty
    requires !Truthy(grid.itemWidth)
    requires grid.startDate <= program.since <= grid.endDate < ResolvedTill(program, nextProgram)
    requires Scaled(grid.itemHeight, channelIndex) >= 0.0
    ensures var p := ProgramPosition(program, nextProgram, channelIndex, itemIndex, grid).position;
      && p.left == ItemDiffWidth(program.since - grid.startDate, grid.hourWidth)
      && p.width == ItemDiffWidth(grid.endDate - program.since, grid.hourWidth)
      && p.edgeEnd == ItemDiffWidth(grid.endDate - grid.startDate, grid.hourWidth)
      && p.edgeEnd == p.left + p.width
  {
    ItemDiffWidthAdditive(program.since - grid.startDate, grid.endDate - program.since, grid.hourWidth);
  }

  /**
   * Time mode, a program that starts before the window and ends after it: it starts at 0
   * and is exactly as wide as the whole window.
   */
  lemma SpansWholeWindowPlacement(program: Program, nextProgram: Option<Program>,
                                  channelIndex: int, itemIndex: int, grid: Grid)
    requires TillKnown(program, nextProgram) && !program.isEmpty
    requires !Truthy(grid.itemWidth)
    requires program.since < grid.startDate <= grid.endDate < ResolvedTill(program, nextProgram)
    requires Scaled(grid.itemHeight, channelIndex) >= 0.0
    ensures var p := ProgramPosition(program, nextProgram, channelIndex, itemIndex, grid).position;
      && p.left == 0.0
      && p.width == ItemDiffWidth(grid.endDate - grid.startDate, grid.hourWidth)
      && p.edgeEnd == p.width
  {
  }

  /**
   * Time mode, a program that starts before the window and ends inside it (the first
   * program of a day): it starts at 0 and is as wide as the part after the window start.
   */
  lemma CrossesWindowStartPlacement(program: Program, nextProgram: Option<Program>,
                                    channelIndex: int, itemIndex: int, grid: Grid)
    requires TillKnown(program, nextProgram) && !program.isEmpty
    requires !Truthy(grid.itemWidth)
    requires program.since < grid.startDate <= ResolvedTill(program, nextProgram) <= grid.endDate
    requires Scaled(grid.itemHeight, channelIndex) >= 0.0
    ensures var p := ProgramPosition(program, nextProgram, channelIndex, itemIndex, grid).position;
      && p.left == 0.0
      && p.width == ItemDiffWidth(ResolvedTill(program, nextProgram) - grid.startDate, grid.hourWidth)
      && p.edgeEnd == p.width
  {
  }

  /**
   * Time mode, a program that starts after the window ends: it has no width and sits at
   * the window's end.
   */
  lemma StartsAfterWindowPlacement(program: Program, nextProgram: Option<Program>,
                                   channelIndex: int, itemIndex: int, grid: Grid)
    requires TillKnown(program, nextProgram) && !program.isEmpty
    requires !Truthy(grid.itemWidth)
    requires grid.startDate <= grid.endDate < program.since <= ResolvedTill(program, nextProgram)
    ensures var p := ProgramPosition(program, nextProgram, channelIndex, itemIndex, grid).position;
      && p.width == 0.0
      && p.left == ItemDiffWidth(grid.endDate - grid.startDate, grid.hourWidth)
      && p.edgeEnd == p.left
  {
  }

  /**
   * Time mode, a program that ends no later than the window starts has no positive width,
   * whatever its row.
   */
  lemma EndedBeforeWindowHasNoWidth(program: Program, nextProgram: Option<Program>,
                                    channelIndex: int, itemIndex: int, grid: Grid)
    requires TillKnown(program, nextProgram) && !program.isEmpty
    requires !Truthy(grid.itemWidth) && grid.startDate <= grid.endDate && 0.0 <= grid.hourWidth
    requires program.since < grid.startDate && ResolvedTill(program, nextProgram) <= grid.startDate
    ensures ProgramPosition(program, nextProgram, channelIndex, itemIndex, grid).position.width <= 0.0
  {
    var till := ResolvedTill(program, nextProgram);
    ItemDiffWidthMonotone(till - grid.startDate, 0, grid.hourWidth);
  }

  // -------- Converting the program list --------

  /** The index of the first channel whose key is `key`, or -1 (Array.prototype.findIndex). */
  function FindChannelIndex(channels: seq<Channel>, key: string): (r: int)
    ensures -1 <= r < |channels|
    ensures 0 <= r ==> channels[r].key == key && forall j :: 0 <= j < r ==> channels[j].key != key
    ensures r == -1 <==> forall j :: 0 <= j < |channels| ==> channels[j].key != key
  {
    if |channels| == 0 then -1
    else if channels[0].key == key then 0
    else
      var k := FindChannelIndex(channels[1..], key);
      if k == -1 then -1 else k + 1
  }

  /**
   * The running item index of program `i`: its position in the run of same-channel
   * programs that ends at `i` in array order.
   */
  function RunIndex(data: seq<Program>, i: nat): (r: nat)
    requires i < |data|
    ensures r <= i
    ensures forall j :: i - r <= j <= i ==> data[j].channel == data[i].channel
    ensures r < i ==> data[i - r - 1].channel != data[i].channel
  {
    if i == 0 || data[i - 1].channel != data[i].channel then 0 else RunIndex(data, i - 1) + 1
  }

  /** The program passed on as "next": the array-next one, only if it is on the same channel. */
  function NextSameChannel(data: seq<Program>, i: nat): Option<Program>
    requires i < |data|
  {
    if i + 1 < |data| && data[i + 1].channel == data[i].channel then Some(data[i + 1]) else None
  }

  /** Every program of the list can be given an end. */
  predicate TillsKnown(data: seq<Program>) {
    forall i :: 0 <= i < |data| ==> TillKnown(data[i], NextSameChannel(data, i))
  }

  /** The converted record of program `i`: what getConvertedPrograms produces at index `i`. */
  function ConvertedAt(data: seq<Program>, channels: seq<Channel>, grid: Grid, i: nat): ProgramWithPosition
    requires i < |data| && TillKnown(data[i], NextSameChannel(data, i))
  {
    ProgramPosition(data[i], NextSameChannel(data, i), FindChannelIndex(channels, data[i].channel),
                    RunIndex(data, i), grid)
  }

  /**
   * getConvertedPrograms: one positioned record per program, in input order. The running
   * item index restarts at 0 whenever the previous program is on another channel.
   */
  method ConvertPrograms(data: seq<Program>, channels: seq<Channel>, grid: Grid)
    returns (r: seq<ProgramWithPosition>)
    requires TillsKnown(data)
    ensures |r| == |data|
    ensures forall i :: 0 <= i < |data| ==> r[i] == ConvertedAt(data, channels, grid, i)
  {
    var itemIndex := 0;
    r := [];
    var index := 0;
    while index < |data|
      invariant 0 <= index <= |data|
      invariant |r| == index
      invariant forall i :: 0 <= i < index ==> r[i] == ConvertedAt(data, channels, grid, i)
      invariant 0 < index ==> itemIndex == RunIndex(data, index - 1)
    {
      var program := data[index];
      var channelIndex := FindChannelIndex(channels, program.channel);
      var isPrevSameChannel := index > 0 && data[index - 1].channel == program.channel;
      var isNextSameChannel := index + 1 < |data| && data[index + 1].channel == program.channel;
      itemIndex := if isPrevSameChannel then itemIndex + 1 else 0;
      var nextProgram := if isNextSameChannel then Some(data[index + 1]) else None;
      assert TillKnown(data[index], NextSameChannel(data, index));
      r := r + [ProgramPosition(program, nextProgram, channelIndex, itemIndex, grid)];
      index := index + 1;
    }
  }

  /** Same-channel programs are contiguous in the list. */
  ghost predicate GroupedByChannel(data: seq<Program>) {
    forall i, j, k :: 0 <= i < j < k < |data| && data[i].channel == data[k].channel ==>
      data[j].channel == data[i].channel
  }

  /** How many of the first `n` programs are on channel `key`. */
  function CountOnChannel(data: seq<Program>, n: nat, key: string): nat
    requires n <= |data|
  {
    if n == 0 then 0
    else CountOnChannel(data, n - 1, key) + (if data[n - 1].channel == key then 1 else 0)
  }

  lemma {:induction false} CountOnChannelNone(data: seq<Program>, n: nat, key: string)
    requires n <= |data|
    requires forall j :: 0 <= j < n ==> data[j].channel != key
    ensures CountOnChannel(data, n, key) == 0
  {
    if n > 0 {
      CountOnChannelNone(data, n - 1, key);
    }
  }

  /**
   * When the input is grouped by channel, the running item index of a program is the
   * number of programs of its channel that come before it.
   */
  lemma {:induction false} RunIndexCountsPredecessors(data: seq<Program>, i: nat)
    requires GroupedByChannel(data) && i < |data|
    ensures RunIndex(data, i) == CountOnChannel(data, i, data[i].channel)
  {
    if i == 0 {
    } else if data[i - 1].channel == data[i].channel {
      RunIndexCountsPredecessors(data, i - 1);
    } else {
      forall j | 0 <= j < i
        ensures data[j].channel != data[i].channel
      {
      }
      CountOnChannelNone(data, i, data[i].channel);
    }
  }

  /** The adjacency rule on the list [c1, c1, c2, c1]: indices 0, 1, 0, 0. */
  lemma RunIndexExample(a: Program, b: Program, c: Program, d: Program)
    requires a.channel == b.channel == d.channel != c.channel
    ensures var data := [a, b, c, d];
      RunIndex(data, 0) == 0 && RunIndex(data, 1) == 1 && RunIndex(data, 2) == 0 && RunIndex(data, 3) == 0
  {
  }

  /**
   * Fixed-width mode on grouped input: a program that starts inside the window is placed
   * after exactly the same-channel programs before it, one item width each.
   */
  lemma FixedWidthLeftCountsPredecessors(data: seq<Program>, channels: seq<Channel>, grid: Grid, i: nat)
    requires GroupedByChannel(data) && i < |data| && TillKnown(data[i], NextSameChannel(data, i))
    requires Truthy(grid.itemWidth) && !data[i].isEmpty && data[i].since >= grid.startDate
    ensures ConvertedAt(data, channels, grid, i).position.left ==
      Scaled(grid.itemWidth.value, CountOnChannel(data, i, data[i].channel))
  {
    FixedWidthLeftIsSlot(data, channels, grid, i);
    RunIndexCountsPredecessors(data, i);
  }

  lemma FixedWidthLeftIsSlot(data: seq<Program>, channels: seq<Channel>, grid: Grid, i: nat)
    requires i < |data| && TillKnown(data[i], NextSameChannel(data, i))
    requires Truthy(grid.itemWidth) && !data[i].isEmpty && data[i].since >= grid.startDate
    ensures ConvertedAt(data, channels, grid, i).position.left == Scaled(grid.itemWidth.value, RunIndex(data, i))
  {
    var k := RunIndex(data, i);
    var x := PositionX(grid.startDate, data[i].since, grid.startDate, grid.endDate, grid.hourWidth,
                       Some(k), grid.itemWidth);
    assert x == Scaled(grid.itemWidth.value, k) by {
      assert FixedWidthMode(Some(k), grid.itemWidth);
    }
    assert ConvertedAt(data, channels, grid, i).position.left == x;
  }

  /**
   * Fixed-width mode: two consecutive programs of one channel tile the row, the first
   * ending where the second starts.
   */
  lemma FixedWidthNeighboursTile(data: seq<Program>, channels: seq<Channel>, grid: Grid, i: nat)
    requires i + 1 < |data| && data[i].channel == data[i + 1].channel
    requires TillKnown(data[i], NextSameChannel(data, i))
    requires TillKnown(data[i + 1], NextSameChannel(data, i + 1))
    requires Truthy(grid.itemWidth) && !data[i].isEmpty && !data[i + 1].isEmpty
    requires data[i + 1].since >= grid.startDate
    ensures ConvertedAt(data, channels, grid, i).position.edgeEnd ==
      ConvertedAt(data, channels, grid, i + 1).position.left
  {
  }

  /**
   * Fixed-width mode does not tile before the window: when the second of two consecutive
   * same-channel programs also starts before the window, it is pulled back to left 0 while
   * the first still ends at the close of its slot, so the two overlap.
   */
  lemma FixedWidthBeforeWindowOverlaps(data: seq<Program>, channels: seq<Channel>, grid: Grid, i: nat)
    requires i + 1 < |data| && data[i].channel == data[i + 1].channel
    requires TillKnown(data[i], NextSameChannel(data, i))
    requires TillKnown(data[i + 1], NextSameChannel(data, i + 1))
    requires Truthy(grid.itemWidth) && 0.0 < grid.itemWidth.value
    requires !data[i].isEmpty && !data[i + 1].isEmpty
    requires data[i + 1].since < grid.startDate
    ensures ConvertedAt(data, channels, grid, i + 1).position.left == 0.0
    ensures ConvertedAt(data, channels, grid, i).position.edgeEnd ==
      Scaled(grid.itemWidth.value, RunIndex(data, i) + 1)
    ensures ConvertedAt(data, channels, grid, i + 1).position.left <
      ConvertedAt(data, channels, grid, i).position.edgeEnd
  {
  }

  /** A program whose channel is found sits exactly on that channel's converted row. */
  lemma ProgramSitsOnChannelRow(data: seq<Program>, channels: seq<Channel>, grid: Grid, i: nat)
    requires i < |data| && TillKnown(data[i], NextSameChannel(data, i))
    ensures var c := FindChannelIndex(channels, data[i].channel);
      var p := ConvertedAt(data, channels, grid, i).position;
      0 <= c ==>
        && ConvertChannels(channels, grid.itemHeight)[c].channel.key == data[i].channel
        && p.top == ConvertChannels(channels, grid.itemHeight)[c].position.top
        && p.height == ConvertChannels(channels, grid.itemHeight)[c].position.height
  {
    var c := FindChannelIndex(channels, data[i].channel);
    var p := ProgramPosition(data[i], NextSameChannel(data, i), c, RunIndex(data, i), grid).position;
    assert p.top == Scaled(grid.itemHeight, c) && p.height == grid.itemHeight;
    if 0 <= c {
      var rows := ConvertChannels(channels, grid.itemHeight);
      assert rows[c].position == ChannelPosition(Scaled(grid.itemHeight, c), grid.itemHeight);
    }
  }

  // -------- Visibility --------

  /**
   * getSidebarItemVisibility: a row is mounted while the scroll offset lies in the band
   * from just above its top (one container height) to 3 overscans below it.
   */
  function SidebarItemVisible(top: real, scrollY: real, containerHeight: real, itemOverscan: real): (r: bool)
    ensures r <==> top - containerHeight < scrollY <= top + 3.0 * itemOverscan
  {
    if scrollY > top + itemOverscan * 3.0 then false
    else if scrollY + containerHeight <= top then false
    else true
  }

  /**
   * getItemVisibility: a program is mounted when it has positive width, its row passes the
   * sidebar test, and its horizontal extent [left, edgeEnd] meets the viewport.
   */
  function ItemVisible(position: Position, scrollY: real, scrollX: real, containerHeight: real,
                       containerWidth: real, itemOverscan: real): (r: bool)
    ensures r <==>
      && 0.0 < position.width
      && SidebarItemVisible(position.top, scrollY, containerHeight, itemOverscan)
      && position.left <= scrollX + containerWidth
      && scrollX <= position.edgeEnd
  {
    if position.width <= 0.0 then false
    else if scrollY > position.top + itemOverscan * 3.0 then false
    else if scrollY + containerHeight <= position.top then false
    else if scrollX + containerWidth >= position.left && scrollX <= position.edgeEnd then true
    else false
  }

  /** Once scrolled more than 3 overscans past an item's top, it stays unmounted further down. */
  lemma VisibilityLostForGood(position: Position, scrollY: real, scrollY': real, scrollX: real,
                              containerHeight: real, containerWidth: real, itemOverscan: real)
    requires position.top + 3.0 * itemOverscan < scrollY <= scrollY'
    ensures !ItemVisible(position, scrollY', scrollX, containerHeight, containerWidth, itemOverscan)
    ensures !SidebarItemVisible(position.top, scrollY', containerHeight, itemOverscan)
  {
  }

  /**
   * A converted program whose channel is not in the list is never mounted, whatever the
   * scroll state, as long as rows have positive height.
   */
  lemma UnmatchedProgramNeverVisible(data: seq<Program>, channels: seq<Channel>, grid: Grid, i: nat,
                                     scrollY: real, scrollX: real, containerHeight: real,
                                     containerWidth: real, itemOverscan: real)
    requires i < |data| && TillKnown(data[i], NextSameChannel(data, i))
    requires !data[i].isEmpty && 0.0 < grid.itemHeight
    requires forall c :: 0 <= c < |channels| ==> channels[c].key != data[i].channel
    ensures !ItemVisible(ConvertedAt(data, channels, grid, i).position, scrollY, scrollX,
                         containerHeight, containerWidth, itemOverscan)
  {
    assert FindChannelIndex(channels, data[i].channel) == -1;
  }

  // -------- Worked examples --------

  /**
   * Window 00:00-24:00 at 100 pixels per hour, a program 01:00-03:00 on the first row
   * (height 80): left 100, width 200, edgeEnd 300, top 0.
   */
  lemma InWindowExample(program: Program)
    requires program.since == 60 && program.till == Some(180) && !program.isEmpty
    ensures ProgramPosition(program, None, 0, 0, Grid(0, 1440, 100.0, None, 80.0)).position ==
      Position(200.0, 80.0, 0.0, 100.0, 300.0)
  {
  }

  /** Same window, a program 23:00 the day before until 01:00: left clamps to 0, width 100. */
  lemma SpansWindowStartExample(program: Program)
    requires program.since == -60 && program.till == Some(60) && !program.isEmpty
    ensures var p := ProgramPosition(program, None, 0, 0, Grid(0, 1440, 100.0, None, 80.0)).position;
      p.left == 0.0 && p.width == 100.0
  {
  }

  /** Three programs of width 150 on one channel: left edges 0, 150 and 300. */
  lemma FixedWidthRowExample(data: seq<Program>, channels: seq<Channel>)
    requires |data| == 3 && TillsKnown(data)
    requires forall i :: 0 <= i < 3 ==> !data[i].isEmpty && data[i].since >= 0 && data[i].channel == data[0].channel
    ensures var grid := Grid(0, 1440, 100.0, Some(150.0), 80.0);
      && ConvertedAt(data, channels, grid, 0).position.left == 0.0
      && ConvertedAt(data, channels, grid, 1).position.left == 150.0
      && ConvertedAt(data, channels, grid, 2).position.left == 300.0
  {
    assert RunIndex(data, 2) == 2;
  }
}

=== FILE: options.dfy ===
/** An optional value: stands for a JavaScript parameter or field that may be `undefined`. */
module Options {

  datatype Option<+T> = None | Some(value: T)

}

=== FILE: row.dfy ===
/**
 * The per-row scroll controller (src/Epg/hooks/useRow.tsx) with the React and DOM
 * plumbing taken away: one scroll box whose horizontal and vertical offsets the commands
 * move, a boundary marker on the wrapper element (its `data-state` attribute), the
 * committed scroll state, and the pagination callbacks, which become recorded events.
 *
 * The browser's own motion is the environment: a command only records where it asked the
 * box to go (`requestedLeft`), and `Frame` reports the offsets the box has reached. A scroll
 * started with a completion callback keeps waiting, frame after frame, until the box's
 * offset equals its target, and only then runs its callback.
 */
module RowScroll {
  import opened Options
  import Epg

  /** The wrapper's `data-state` attribute: `beginning`, `end`, or removed. */
  datatype Boundary = Beginning | End | Cleared

  /** A pagination callback that has run, with the program it was given. */
  datatype Event =
    | ReachedBeginning(firstProgram: Option<Epg.ProgramWithPosition>)
    | ReachedEnd(lastProgram: Option<Epg.ProgramWithPosition>)

  /**
   * A scroll started by scrollToWithCallback that has not yet arrived: the offset it
   * waits for, the unclamped offset the command computed, and the program its callback
   * reports.
   */
  datatype Arrival = Arrival(target: real, left: real, firstProgram: Option<Epg.ProgramWithPosition>)

  function Max0(x: real): real { if x < 0.0 then 0.0 else x }

  /** The offset from which the row counts as scrolled to its end. */
  function EndThreshold(width: real, layoutWidth: real, sidebarWidth: real): real {
    width - layoutWidth + sidebarWidth
  }

  /**
   * handleSetAttribute: the marker for a horizontal offset. At or before 0 the row is at
   * its beginning, even when the end threshold is also reached.
   */
  function BoundaryAt(scrollLeft: real, threshold: real): (b: Boundary)
    ensures b == Beginning <==> scrollLeft <= 0.0
    ensures b == End <==> 0.0 < scrollLeft && threshold <= scrollLeft
    ensures b == Cleared <==> 0.0 < scrollLeft < threshold
  {
    if scrollLeft <= 0.0 then Beginning
    else if scrollLeft >= threshold then End
    else Cleared
  }

  function Rank(b: Boundary): nat {
    match b
    case Beginning => 0
    case Cleared => 1
    case End => 2
  }

  /** Scrolling further right never moves the marker back towards the beginning. */
  lemma BoundaryMonotone(scrollLeft: real, scrollLeft': real, threshold: real)
    requires scrollLeft <= scrollLeft'
    ensures Rank(BoundaryAt(scrollLeft, threshold)) <= Rank(BoundaryAt(scrollLeft', threshold))
  {
  }

  /** The step of a left or right command: the given value when truthy, else two items. */
  function Step(value: Option<real>, itemWidth: real): real {
    if Epg.Truthy(value) then value.value else itemWidth * 2.0
  }

  /** The unclamped offset a scroll-left command computes. */
  function LeftOf(scrollLeft: real, value: Option<real>, itemWidth: real): real {
    scrollLeft - Step(value, itemWidth)
  }

  /** The offset a scroll-right command computes. */
  function RightOf(scrollLeft: real, value: Option<real>, itemWidth: real): real {
    scrollLeft + Step(value, itemWidth)
  }

  /**
   * Scrolling left and then right by the same value (or both by the default step) returns
   * to the starting offset, and so does right then left.
   */
  lemma LeftRightRoundTrip(scrollLeft: real, value: Option<real>, itemWidth: real)
    ensures RightOf(LeftOf(scrollLeft, value, itemWidth), value, itemWidth) == scrollLeft
    ensures LeftOf(RightOf(scrollLeft, value, itemWidth), value, itemWidth) == scrollLeft
    ensures Epg.Truthy(value) ==> LeftOf(scrollLeft, value, itemWidth) == scrollLeft - value.value
    ensures !Epg.Truthy(value) ==> RightOf(scrollLeft, value, itemWidth) == scrollLeft + 2.0 * itemWidth
  {
  }

  /**
   * The target of a scroll started with a beginning callback: the computed offset raised
   * to 0. It is never negative, never left of the computed offset, and it is 0 exactly
   * when the callback will report the beginning.
   */
  function CallbackTarget(left: real): (t: real)
    ensures 0.0 <= t && left <= t
    ensures t == 0.0 <==> left <= 0.0
    ensures 0.0 <= left ==> t == left
  {
    Max0(left)
  }

  /**
   * The scroll-to-now target: one item before the live program when there is one;
   * otherwise the offset of "now" from the start of today, which is 0 in fixed-width
   * mode. In time mode it is measured from the later of midnight and the window start:
   * the time since midnight for a window that opens at or before midnight, the time since
   * the window opened for a later one (negative before it opens), and the whole window
   * once now has passed the window's end.
   */
  function NowTarget(liveProgram: Option<Epg.ProgramWithPosition>, startOfToday: Epg.Instant,
                     now: Epg.Instant, startDate: Epg.Instant, endDate: Epg.Instant,
                     hourWidth: real, itemWidth: real): (t: real)
    ensures liveProgram.Some? ==> t == liveProgram.value.position.left - itemWidth
    ensures liveProgram.None? && itemWidth != 0.0 ==> t == 0.0
    ensures liveProgram.None? && itemWidth == 0.0 && startDate <= startOfToday <= now <= endDate ==>
      t == Epg.ItemDiffWidth(now - startOfToday, hourWidth)
    ensures liveProgram.None? && itemWidth == 0.0 && startOfToday <= startDate <= endDate && now <= endDate ==>
      t == Epg.ItemDiffWidth(now - startDate, hourWidth)
    ensures liveProgram.None? && itemWidth == 0.0 && startOfToday <= startDate <= endDate < now ==>
      t == Epg.ItemDiffWidth(endDate - startDate, hourWidth)
  {
    if liveProgram.Some? then liveProgram.value.position.left - itemWidth
    else Epg.PositionX(startOfToday, now, startDate, endDate, hourWidth, Some(0), Some(itemWidth))
  }

  /** The callbacks that run when the box reaches `at`: one beginning per arrived scroll whose offset was not positive. */
  function Fired(waiting: seq<Arrival>, at: real): seq<Event> {
    if |waiting| == 0 then []
    else
      var last := waiting[|waiting| - 1];
      Fired(waiting[..|waiting| - 1], at) +
        (if last.target == at && last.left <= 0.0 then [ReachedBeginning(last.firstProgram)] else [])
  }

  /** The scrolls that keep waiting after the box reaches `at`. */
  function StillWaiting(waiting: seq<Arrival>, at: real): (r: seq<Arrival>)
    ensures forall a :: a in r <==> a in waiting && a.target != at
  {
    if |waiting| == 0 then []
    else
      var last := waiting[|waiting| - 1];
      StillWaiting(waiting[..|waiting| - 1], at) + (if last.target != at then [last] else [])
  }

  /**
   * Each scroll whose target is elsewhere keeps waiting as many times as it was waiting
   * (two identical commands start two independent pollers), and an arrived one not at all.
   */
  lemma {:induction false} StillWaitingCounts(waiting: seq<Arrival>, at: real)
    ensures forall a ::
      multiset(StillWaiting(waiting, at))[a] == (if a.target != at then multiset(waiting)[a] else 0)
  {
    if |waiting| > 0 {
      var last := waiting[|waiting| - 1];
      assert waiting == waiting[..|waiting| - 1] + [last];
      StillWaitingCounts(waiting[..|waiting| - 1], at);
    }
  }

  /** Every waiting scroll targets its computed offset raised to 0. */
  ghost predicate ClampedTargets(waiting: seq<Arrival>) {
    forall a :: a in waiting ==> a.target == CallbackTarget(a.left)
  }

  /**
   * The callbacks that run when the box reaches `at` are exactly the beginnings of the
   * waiting scrolls that arrived there with a computed offset that was not positive.
   */
  lemma {:induction false} FiredExactly(waiting: seq<Arrival>, at: real)
    ensures forall e :: e in Fired(waiting, at) <==>
      exists a :: a in waiting && a.target == at && a.left <= 0.0 && e == ReachedBeginning(a.firstProgram)
  {
    if |waiting| > 0 {
      var last := waiting[|waiting| - 1];
      assert waiting == waiting[..|waiting| - 1] + [last];
      FiredExactly(waiting[..|waiting| - 1], at);
    }
  }

  /** The positions of the waiting scrolls that arrive at `at` with a non-positive offset and program `p`. */
  ghost function ArrivedWith(waiting: seq<Arrival>, at: real, p: Option<Epg.ProgramWithPosition>): set<int> {
    set i | 0 <= i < |waiting| && waiting[i].target == at && waiting[i].left <= 0.0 && waiting[i].firstProgram == p
  }

  lemma ArrivedWithLast(waiting: seq<Arrival>, at: real, p: Option<Epg.ProgramWithPosition>)
    requires |waiting| > 0
    ensures var n := |waiting| - 1;
      var last := waiting[n];
      |ArrivedWith(waiting, at, p)| == |ArrivedWith(waiting[..n], at, p)| +
        (if last.target == at && last.left <= 0.0 && last.firstProgram == p then 1 else 0)
  {
    var n := |waiting| - 1;
    var S := ArrivedWith(waiting, at, p);
    var T := ArrivedWith(waiting[..n], at, p);
    if waiting[n].target == at && waiting[n].left <= 0.0 && waiting[n].firstProgram == p {
      assert S == T + {n};
    } else {
      assert S == T;
    }
  }

  /**
   * One callback per arrived poller: the beginning reporting `p` runs as many times as
   * there are waiting scrolls that arrived at `at` with a non-positive computed offset
   * and the program `p`.
   */
  lemma {:induction false} FiredCounts(waiting: seq<Arrival>, at: real, p: Option<Epg.ProgramWithPosition>)
    ensures multiset(Fired(waiting, at))[ReachedBeginning(p)] ==
      |set i | 0 <= i < |waiting| && waiting[i].target == at && waiting[i].left <= 0.0 && waiting[i].firstProgram == p|
  {
    assert ArrivedWith(waiting, at, p) ==
      set i | 0 <= i < |waiting| && waiting[i].target == at && waiting[i].left <= 0.0 && waiting[i].firstProgram == p;
    if |waiting| > 0 {
      var n := |waiting| - 1;
      FiredCounts(waiting[..n], at, p);
      assert ArrivedWith(waiting[..n], at, p) ==
        set i | 0 <= i < |waiting[..n]| && waiting[..n][i].target == at && waiting[..n][i].left <= 0.0 &&
          waiting[..n][i].firstProgram == p;
      ArrivedWithLast(waiting, at, p);
    }
  }

  /**
   * A beginning callback only ever runs when the box has arrived at offset 0, and it
   * reports the program of a scroll that arrived there.
   */
  lemma BeginningOnlyAtZero(waiting: seq<Arrival>, at: real)
    requires ClampedTargets(waiting)
    ensures |Fired(waiting, at)| > 0 ==> at == 0.0
    ensures forall e :: e in Fired(waiting, at) ==>
      exists a :: a in waiting && a.target == at && a.left <= 0.0 && a.target == 0.0 &&
        e == ReachedBeginning(a.firstProgram)
  {
    FiredExactly(waiting, at);
    if |Fired(waiting, at)| > 0 {
      assert Fired(waiting, at)[0] in Fired(waiting, at);
    }
  }

  class Scroller {
    // Layout of the row: content width, visible width, sidebar width.
    var width: real
    var layoutWidth: real
    var sidebarWidth: real
    const itemWidth: real
    const hourWidth: real
    const startDate: Epg.Instant
    const endDate: Epg.Instant
    // Whether the scroll box and the wrapper elements exist.
    const boxMounted: bool
    const wrapperMounted: bool

    // The scroll box's offsets, and the offset its latest scrollTo asked for.
    var scrollLeft: real
    var scrollTop: real
    var requestedLeft: Option<real>
    // The wrapper's marker.
    var boundary: Boundary
    // The committed scroll state.
    var scrollX: real
    var scrollY: real
    // Scrolls waiting for their arrival, and the callbacks that have run.
    var waiting: seq<Arrival>
    var events: seq<Event>

    function Threshold(): real
      reads this
    {
      EndThreshold(width, layoutWidth, sidebarWidth)
    }

    ghost predicate Valid()
      reads this
    {
      && (boxMounted && wrapperMounted ==> boundary == BoundaryAt(scrollLeft, Threshold()))
      && ClampedTargets(waiting)
    }

    /** Mounting a row: offsets at 0, and the layout effect sets the marker. */
    constructor (width: real, layoutWidth: real, sidebarWidth: real, itemWidth: real, hourWidth: real,
                 startDate: Epg.Instant, endDate: Epg.Instant, boxMounted: bool, wrapperMounted: bool)
      ensures Valid()
      ensures this.width == width && this.layoutWidth == layoutWidth && this.sidebarWidth == sidebarWidth
      ensures this.itemWidth == itemWidth && this.hourWidth == hourWidth
      ensures this.startDate == startDate && this.endDate == endDate
      ensures this.boxMounted == boxMounted && this.wrapperMounted == wrapperMounted
      ensures scrollLeft == 0.0 && scrollTop == 0.0 && requestedLeft == None
      ensures boundary == (if boxMounted && wrapperMounted then Beginning else Cleared)
      ensures scrollX == 0.0 && scrollY == 0.0 && waiting == [] && events == []
    {
      this.width, this.layoutWidth, this.sidebarWidth := width, layoutWidth, sidebarWidth;
      this.itemWidth, this.hourWidth := itemWidth, hourWidth;
      this.startDate, this.endDate := startDate, endDate;
      this.boxMounted, this.wrapperMounted := boxMounted, wrapperMounted;
      scrollLeft, scrollTop, requestedLeft := 0.0, 0.0, None;
      boundary := if boxMounted && wrapperMounted then BoundaryAt(0.0, EndThreshold(width, layoutWidth, sidebarWidth)) else Cleared;
      scrollX, scrollY := 0.0, 0.0;
      waiting, events := [], [];
    }

    /**
     * A frame in which the box has reached the given offsets: the scroll handler sets the
     * marker and commits the offsets, then every waiting scroll whose target is the new
     * horizontal offset runs its callback and stops waiting.
     */
    method Frame(left: real, top: real)
      requires Valid()
      modifies this
      ensures Valid()
      ensures scrollLeft == left && scrollTop == top
      ensures scrollX == left && scrollY == top
      ensures boundary == if wrapperMounted then BoundaryAt(left, Threshold()) else old(boundary)
      ensures waiting == StillWaiting(old(waiting), left)
      ensures events == old(events) + Fired(old(waiting), left)
      ensures requestedLeft == old(requestedLeft)
      ensures width == old(width) && layoutWidth == old(layoutWidth) && sidebarWidth == old(sidebarWidth)
    {
      scrollLeft, scrollTop := left, top;
      if wrapperMounted {
        boundary := BoundaryAt(left, Threshold());
      }
      scrollX, scrollY := left, top;

      var polled := waiting;
      var kept: seq<Arrival> := [];
      var fired: seq<Event> := [];
      var k := 0;
      while k < |polled|
        invariant 0 <= k <= |polled|
        invariant kept == StillWaiting(polled[..k], left)
        invariant fired == Fired(polled[..k], left)
      {
        var a := polled[k];
        assert polled[..k + 1][..k] == polled[..k];
        if a.target == left {
          if a.left <= 0.0 {
            fired := fired + [ReachedBeginning(a.firstProgram)];
          }
        } else {
          kept := kept + [a];
        }
        k := k + 1;
      }
      assert polled[..k] == polled;
      waiting := kept;
      events := events + fired;
    }

    /** handleOnScrollLeft: step left; with a beginning callback, wait for the arrival. */
    method ScrollLeft(value: Option<real>, onReachBeginning: bool, firstProgram: Option<Epg.ProgramWithPosition>)
      requires Valid()
      modifies this
      ensures Valid()
      ensures var left := LeftOf(old(scrollLeft), value, itemWidth);
        if !boxMounted then
          requestedLeft == old(requestedLeft) && waiting == old(waiting)
        else if onReachBeginning then
          && requestedLeft == Some(CallbackTarget(left))
          && waiting == old(waiting) + [Arrival(CallbackTarget(left), left, firstProgram)]
        else
          requestedLeft == Some(left) && waiting == old(waiting)
      ensures events == old(events) && boundary == old(boundary)
      ensures scrollLeft == old(scrollLeft) && scrollTop == old(scrollTop)
      ensures scrollX == old(scrollX) && scrollY == old(scrollY)
      ensures width == old(width) && layoutWidth == old(layoutWidth) && sidebarWidth == old(sidebarWidth)
    {
      if boxMounted {
        var left := LeftOf(scrollLeft, value, itemWidth);
        if onReachBeginning {
          requestedLeft := Some(CallbackTarget(left));
          waiting := waiting + [Arrival(CallbackTarget(left), left, firstProgram)];
        } else {
          requestedLeft := Some(left);
        }
      }
    }

    /** handleOnScrollRight: step right; the end callback runs at once when the step reaches the end. */
    method ScrollRight(value: Option<real>, onReachEnd: bool, lastProgram: Option<Epg.ProgramWithPosition>)
      requires Valid()
      modifies this
      ensures Valid()
      ensures var right := RightOf(old(scrollLeft), value, itemWidth);
        if !boxMounted then
          requestedLeft == old(requestedLeft) && events == old(events)
        else
          && requestedLeft == Some(right)
          && events == old(events) + (if onReachEnd && right >= Threshold() then [ReachedEnd(lastProgram)] else [])
      ensures waiting == old(waiting) && boundary == old(boundary)
      ensures scrollLeft == old(scrollLeft) && scrollTop == old(scrollTop)
      ensures scrollX == old(scrollX) && scrollY == old(scrollY)
      ensures width == old(width) && layoutWidth == old(layoutWidth) && sidebarWidth == old(sidebarWidth)
    {
      if boxMounted {
        var right := RightOf(scrollLeft, value, itemWidth);
        requestedLeft := Some(right);
        if onReachEnd && right >= Threshold() {
          events := events + [ReachedEnd(lastProgram)];
        }
      }
    }

    /** handleOnScrollTop: move the vertical offset by the value, an hour's width by default. */
    method ScrollTop(value: Option<real>)
      requires Valid()
      modifies this
      ensures Valid()
      ensures scrollTop == if boxMounted then old(scrollTop) + (if value.Some? then value.value else hourWidth)
                           else old(scrollTop)
      ensures scrollLeft == old(scrollLeft) && requestedLeft == old(requestedLeft)
      ensures boundary == old(boundary) && waiting == old(waiting) && events == old(events)
      ensures scrollX == old(scrollX) && scrollY == old(scrollY)
      ensures width == old(width) && layoutWidth == old(layoutWidth) && sidebarWidth == old(sidebarWidth)
    {
      if boxMounted {
        scrollTop := scrollTop + (if value.Some? then value.value else hourWidth);
      }
    }

    /** handleScrollTo: ask for exactly the given horizontal offset. */
    method ScrollTo(value: real)
      requires Valid()
      modifies this
      ensures Valid()
      ensures requestedLeft == if boxMounted then Some(value) else old(requestedLeft)
      ensures scrollLeft == old(scrollLeft) && scrollTop == old(scrollTop)
      ensures boundary == old(boundary) && waiting == old(waiting) && events == old(events)
      ensures scrollX == old(scrollX) && scrollY == old(scrollY)
      ensures width == old(width) && layoutWidth == old(layoutWidth) && sidebarWidth == old(sidebarWidth)
    {
      if boxMounted {
        requestedLeft := Some(value);
      }
    }

    /** handleOnScrollToNow: only when the box exists and the row's start date is today. */
    method ScrollToNow(isToday: bool, startOfToday: Epg.Instant, now: Epg.Instant,
                       liveProgram: Option<Epg.ProgramWithPosition>)
      requires Valid()
      modifies this
      ensures Valid()
      ensures requestedLeft ==
        if boxMounted && isToday
        then Some(NowTarget(liveProgram, startOfToday, now, startDate, endDate, hourWidth, itemWidth))
        else old(requestedLeft)
      ensures scrollLeft == old(scrollLeft) && scrollTop == old(scrollTop)
      ensures boundary == old(boundary) && waiting == old(waiting) && events == old(events)
      ensures scrollX == old(scrollX) && scrollY == old(scrollY)
      ensures width == old(width) && layoutWidth == old(layoutWidth) && sidebarWidth == old(sidebarWidth)
    {
      if boxMounted && isToday {
        requestedLeft := Some(NowTarget(liveProgram, startOfToday, now, startDate, endDate, hourWidth, itemWidth));
      }
    }

    /** The mount effect: scroll to now when asked to, on today's row, once it is no skeleton. */
    method AutoScrollToNow(isToday: bool, isScrollToNow: bool, isSkeleton: bool,
                           startOfToday: Epg.Instant, now: Epg.Instant,
                           liveProgram: Option<Epg.ProgramWithPosition>)
      requires Valid()
      modifies this
      ensures Valid()
      ensures requestedLeft ==
        if boxMounted && isToday && isScrollToNow && !isSkeleton
        then Some(NowTarget(liveProgram, startOfToday, now, startDate, endDate, hourWidth, itemWidth))
        else old(requestedLeft)
      ensures scrollLeft == old(scrollLeft) && scrollTop == old(scrollTop)
      ensures boundary == old(boundary) && waiting == old(waiting) && events == old(events)
      ensures scrollX == old(scrollX) && scrollY == old(scrollY)
      ensures width == old(width) && layoutWidth == old(layoutWidth) && sidebarWidth == old(sidebarWidth)
    {
      if boxMounted && isToday && isScrollToNow && !isSkeleton {
        ScrollToNow(isToday, startOfToday, now, liveProgram);
      }
    }

    /** The layout effect: new widths, and the marker recomputed from the box's offset. */
    method Relayout(width': real, layoutWidth': real, sidebarWidth': real)
      requires Valid()
      modifies this
      ensures Valid()
      ensures width == width' && layoutWidth == layoutWidth' && sidebarWidth == sidebarWidth'
      ensures boundary == if boxMounted && wrapperMounted
                          then BoundaryAt(scrollLeft, EndThreshold(width', layoutWidth', sidebarWidth'))
                          else old(boundary)
      ensures scrollLeft == old(scrollLeft) && scrollTop == old(scrollTop) && requestedLeft == old(requestedLeft)
      ensures waiting == old(waiting) && events == old(events)
      ensures scrollX == old(scrollX) && scrollY == old(scrollY)
    {
      width, layoutWidth, sidebarWidth := width', layoutWidth', sidebarWidth';
      if boxMounted && wrapperMounted {
        boundary := BoundaryAt(scrollLeft, Threshold());
      }
    }
  }

  /**
   * From offset `start`, scroll left by `value` with a beginning callback, then let the box
   * land at `landing`: the callback has run exactly when the box landed on the clamped
   * target and the computed offset was not positive.
   */
  method BeginningFiresOnArrival(start: real, value: real, landing: real) returns (events: seq<Event>)
    requires value != 0.0
    ensures events == if landing == CallbackTarget(start - value) && start - value <= 0.0
                      then [ReachedBeginning(None)] else []
  {
    var row := new Scroller(1000.0, 500.0, 100.0, 150.0, 300.0, 0, 1440, true, true);
    row.Frame(start, 0.0);
    assert row.waiting == [] && row.events == [];
    row.ScrollLeft(Some(value), true, None);
    assert row.waiting == [Arrival(CallbackTarget(start - value), start - value, None)];
    row.Frame(landing, 0.0);
    assert Fired([Arrival(CallbackTarget(start - value), start - value, None)], landing) ==
      Fired([], landing) + (if CallbackTarget(start - value) == landing && start - value <= 0.0
                           then [ReachedBeginning(None)] else []);
    events := row.events;
  }

  /**
   * From offset `start`, scroll right by the default step with an end callback: the
   * callback has run at once, before any frame, exactly when the step reaches the end
   * threshold.
   */
  method EndFiresImmediately(start: real, width: real, layoutWidth: real, sidebarWidth: real, itemWidth: real)
    returns (events: seq<Event>)
    ensures events == if start + 2.0 * itemWidth >= width - layoutWidth + sidebarWidth
                      then [ReachedEnd(None)] else []
  {
    var row := new Scroller(width, layoutWidth, sidebarWidth, itemWidth, 300.0, 0, 1440, true, true);
    row.Frame(start, 0.0);
    row.ScrollRight(None, true, None);
    events := row.events;
  }
}
